=== FILE: README.md ===
# Kardappio digital menu and workouts API — a Dafny model

This project models the decision logic of two small AWS applications.

- **The static digital-menu site** (`main.js`, `qrcodes.js`). It covers:
  - the base-path rule for pages nested under `/pages/`;
  - the catalog and menu loaders and their failure defaults;
  - the featured-restaurant showcase and the name-sorted full listing;
  - restaurant lookup by id;
  - the category switcher on the restaurant page;
  - the per-item image protocol, which sniffs fetched content for a `data:` payload;
  - the QR-code page, with its deep links and QR-service image addresses.
- **The workouts Lambda** (`lambda_function.py`). It covers route dispatch on `routeKey`, the construction of the workout record for `POST /workouts`, and the mapping of exceptions to status codes 400 and 500.

Everything is a pure function over immutable datatypes. Two consequences follow directly. The sorted listings are computed from a copy, so the catalog value is never changed. The loaders are total functions, so their `catch` branches return a default value instead of throwing to the caller. Effects are modelled as parameters:

- `fetch` becomes a function from URL to outcome: a parsed document or a failure for JSON, and body text or a network error for images.
- The browser's image load becomes a function from `src` to loaded or error.
- `localeCompare` becomes an abstract comparison `(string, string) -> int`.
- `encodeURIComponent` becomes an abstract encoder.
- `window.location.origin` and `window.location.pathname` become string parameters.
- In the Lambda, the uuid, the clock, `json.loads`, the scan response and the `put_item` outcome are fields of a `Services` value. The DynamoDB table is a sequence of items.

Modules:

| module | file | contents |
|---|---|---|
| `Wrappers` | wrappers.dfy | `Option` |
| `Strings` | strings.dfy | `includes` / `startsWith` |
| `Sequences` | sequences.dfy | `find` / `filter` |
| `Sorting` | sorting.dfy | stable insertion sort under an abstract order |
| `Paths` | paths.dfy | base-path rule |
| `Catalog` | catalog.dfy | entities, loaders, lookup, name sort |
| `Home` | home.dfy | showcase and full listing |
| `MenuView` | menu_view.dfy | category switcher and image protocol |
| `QrCodes` | qrcodes.dfy | QR page |
| `Workouts` | workouts.dfy | Lambda handler |

Behaviour of the code worth noting:

- **HTTP errors on image fetches.** `fetch` resolves for an HTTP error status such as 404, so a missing image file does not reach the `.catch` fallback. Its response body is plain text that does not start with `data:`, so the path itself becomes the `src`. Only the element's `onerror` handler then applies the placeholder styling. The fallback image `img/pao-de-queijo.jpg` is used only when the fetch rejects (`MenuView.ResolveImage`).
- **Order independence of the listing.** The listing does not depend on catalog order in every case. It holds when no two of the catalog's names tie under the comparison (`Home.FullListingOrderIndependent`). `localeCompare` ties canonically equivalent strings, so distinct names alone are not enough. With ties, the stable sort keeps catalog order among the tied entries (`Catalog.SortByNameStable`).
- **Duplicate category ids.** A click marks the clicked entry active. The items shown come from the first category that has the clicked entry's id. The two agree when category ids are unique (`MenuView.Click`, `MenuView.SessionInvariant`).

## Model

| member | source | states |
|---|---|---|
| `Paths.BasePath` | AWS/S3-Static-Website/js/main.js:10-11 | the base path is "../" exactly when the pathname includes "/pages/", and "" exactly when it does not |
| `Paths.BasePathOccurrence` | AWS/S3-Static-Website/js/main.js:135-136 | "includes" means an occurrence of "/pages/" at some index of the pathname, in both directions |
| `Paths.PagesPrefix` | AWS/S3-Static-Website/js/main.js:252-254 | listing links get the prefix "" on a /pages/ page and "pages/" elsewhere |
| `Paths.PrefixesAgree` | AWS/S3-Static-Website/js/main.js:251-254 | exactly one of the asset prefix and the pages prefix is empty; at the root the pages prefix is the asset prefix plus "pages/" |
| `Strings.IncludesIff` | AWS/S3-Static-Website/js/main.js:11 | the scan behind `includes` succeeds iff the substring occurs at some index |
| `Sequences.FindFirst` | AWS/S3-Static-Website/js/main.js:67 | `find` returns the first index whose element satisfies the predicate, and nothing iff no element does |
| `Sequences.Filter` | AWS/S3-Static-Website/js/main.js:30 | `filter` keeps exactly the satisfying elements and drops no satisfying one |
| `Sequences.FilterConcat` | AWS/S3-Static-Website/js/main.js:30 | filtering distributes over concatenation, so the kept elements stay in input order |
| `Sorting.Sort` | AWS/S3-Static-Website/js/main.js:245 | the sorted copy is a permutation of the input |
| `Sorting.SortSorted` | AWS/S3-Static-Website/js/main.js:245 | under a total preorder the sorted copy is ordered |
| `Sorting.SortedUnique` | AWS/S3-Static-Website/js/main.js:245 | two ordered permutations of the same elements are equal when no two distinct elements tie |
| `Sorting.SortStable` | AWS/S3-Static-Website/js/main.js:245 | elements that tie with any given element appear in the result in the same order and number as in the input |
| `Sorting.SortPermutationInvariant` | AWS/S3-Static-Website/js/main.js:245 | sorting any rearrangement of the input yields the same sequence when no two distinct elements tie |
| `Catalog.CatalogOf` | AWS/S3-Static-Website/js/main.js:14-20 | a failed fetch or parse gives the empty catalog; a missing `restaurantes` field gives none; otherwise the field's value |
| `Catalog.LoadCatalog` | AWS/S3-Static-Website/js/main.js:7-22 | the catalog loader absorbs failures into `[]` and yields no catalog only for a parsed document |
| `Catalog.LoadCatalogReadsOneUrl` | AWS/S3-Static-Website/js/main.js:10-13 | the loader depends on nothing but the document at "../data/restaurantes.json" (under /pages/) or "data/restaurantes.json" |
| `Catalog.LoadMenu` | AWS/S3-Static-Website/js/main.js:75-90 | a failed menu fetch gives a menu with no categories; a parsed menu is returned as is |
| `Catalog.LoadMenuReadsOneUrl` | AWS/S3-Static-Website/js/main.js:78-81 | the menu loader reads only base path + "data/cardapios/" + id + ".json" |
| `Catalog.FindRestaurant` | AWS/S3-Static-Website/js/main.js:64-72 | lookup yields the first entry with the id, and null iff the catalog is missing or no entry has the id |
| `Catalog.FindRestaurantUnique` | AWS/S3-Static-Website/js/main.js:67 | with unique ids the lookup of an entry's id yields that entry |
| `Catalog.SortByName` | AWS/S3-Static-Website/js/main.js:245 | the name-sorted copy has the catalog's length and exactly its entries |
| `Catalog.SortByNameSorted` | AWS/S3-Static-Website/js/main.js:245 | with a consistent comparison the copy is in non-decreasing name order |
| `Catalog.SortByNameOrderIndependent` | AWS/S3-Static-Website/js/main.js:245 | rearranging a catalog no two of whose names tie under the comparison does not change the sorted copy |
| `Catalog.SortByNameStable` | AWS/S3-Static-Website/js/main.js:245 | restaurants whose names tie keep their catalog order in the sorted copy |
| `Home.SelectFeatured` | AWS/S3-Static-Website/js/main.js:29-35 | with some flagged restaurant the showcase holds exactly the flagged ones; with none, it is the first min(3, n) of the catalog; it is never empty for a non-empty catalog |
| `Home.FeaturedKeepsCatalogOrder` | AWS/S3-Static-Website/js/main.js:30-35 | in the flagged case the showcase is the flagged entries in catalog order, split where the catalog is split |
| `Home.FeaturedCards` | AWS/S3-Static-Website/js/main.js:37-58 | one card per selected restaurant, in order, linking to "pages/restaurante.html?id=" + id, badged iff `destaque` |
| `Home.FeaturedBadges` | AWS/S3-Static-Website/js/main.js:54 | every card is badged when some restaurant is flagged, and none in the first-three fallback |
| `Home.FullListing` | AWS/S3-Static-Website/js/main.js:236-254 | the warning iff the catalog is missing or empty; otherwise one row per restaurant of the sorted copy, linking with the page's prefix |
| `Home.FullListingContents` | AWS/S3-Static-Website/js/main.js:245-247 | the rows show each catalog entry exactly once, in name order under a consistent comparison |
| `Home.FullListingOrderIndependent` | AWS/S3-Static-Website/js/main.js:245-254 | the listing of a rearranged catalog no two of whose names tie under the comparison is the same |
| `Home.ThreeUnflaggedShowcase` | AWS/S3-Static-Website/js/main.js:33-35 | the catalog Zeta, Alpha, Mu with no flags is shown as given |
| `Home.ThreeUnflaggedListing` | AWS/S3-Static-Website/js/main.js:245 | the same catalog is listed as Alpha, Mu, Zeta |
| `MenuView.ResolveImage` | AWS/S3-Static-Website/js/main.js:180-214 | a `data:` body becomes the src verbatim; any other body gives base + item image; a rejected fetch gives base + fallback; the image is shown and the spinner hidden |
| `MenuView.OnImageEvent` | AWS/S3-Static-Website/js/main.js:164-165 | load and error both show the image and hide the spinner; placeholder styling iff the load failed |
| `MenuView.ItemImageSettles` | AWS/S3-Static-Website/js/main.js:159-213 | every item image ends visible with its spinner hidden, styled as a placeholder iff its source fails to load |
| `MenuView.ItemsAreIsolated` | AWS/S3-Static-Website/js/main.js:141-217 | an item's card depends only on the fetch of its own image path and the load of the source that fetch selects |
| `MenuView.RenderItem` | AWS/S3-Static-Website/js/main.js:150-217 | the card shows its item with the "Destaque" badge exactly when the item is flagged; its image ends shown with the spinner hidden, styled as a placeholder exactly when its final source fails to load |
| `MenuView.ShowCategory` | AWS/S3-Static-Website/js/main.js:127-147 | the cards are the first matching category's items in document order, and none for an unknown id |
| `MenuView.Render` | AWS/S3-Static-Website/js/main.js:93-122 | initially the first category alone is active and its items are shown; a menu without categories shows nothing |
| `MenuView.Click` | AWS/S3-Static-Website/js/main.js:110-114 | a click removes `active` from every entry and adds it to the clicked one, so from any state exactly the clicked category is active; with unique ids exactly its items are shown |
| `MenuView.ClickForgetsPriorState` | AWS/S3-Static-Website/js/main.js:110-114 | a click leads to the same state whatever state it starts from |
| `MenuView.SessionInvariant` | AWS/S3-Static-Website/js/main.js:103-121 | after rendering and any clicks, exactly one category is active (the last clicked, or the first before any click) and its items are shown |
| `MenuView.EmptyItemListIff` | AWS/S3-Static-Website/js/main.js:127-142 | the item list is empty exactly when no category has the id or the first one with it has no items |
| `QrCodes.LoadCatalog` | AWS/S3-Static-Website/js/qrcodes.js:7-17 | the QR page reads "../data/restaurantes.json" and absorbs failures into `[]` |
| `QrCodes.LoadersAgreeUnderPages` | AWS/S3-Static-Website/js/qrcodes.js:9 | on a /pages/ page both catalog loaders return the same catalog |
| `QrCodes.DeepLink` | AWS/S3-Static-Website/js/qrcodes.js:48 | the deep link starts with origin + "/pages/restaurante.html?id=" and has the length of its parts |
| `QrCodes.DeepLinkRoundTrip` | AWS/S3-Static-Website/js/qrcodes.js:48 | the restaurant id is read back out of its deep link |
| `QrCodes.DeepLinkInjective` | AWS/S3-Static-Website/js/qrcodes.js:48 | distinct ids give distinct deep links |
| `QrCodes.QrImageSrc` | AWS/S3-Static-Website/js/qrcodes.js:57 | the QR src is the service URL followed by exactly the encoded link |
| `QrCodes.CardFor` | AWS/S3-Static-Website/js/qrcodes.js:47-61 | the open button carries the unencoded deep link of its restaurant, and the QR src encodes that same link |
| `QrCodes.QrListing` | AWS/S3-Static-Website/js/qrcodes.js:33-72 | the warning iff the catalog is missing or empty; otherwise one card per entry of the sorted copy |
| `QrCodes.QrListingContents` | AWS/S3-Static-Website/js/qrcodes.js:40-48 | the cards show each entry once, in name order under a consistent comparison, each with its own deep link |
| `QrCodes.SameOrderAsFullListing` | AWS/S3-Static-Website/js/qrcodes.js:40 | the QR page and the full listing agree on the empty state and on the order of restaurants |
| `Workouts.Subscript` | AWS/Lambda-APIgateway-DynamoDB/lambda_function.py:14 | `v[key]` yields the value iff `v` is a dict holding the key; otherwise KeyError for a dict, TypeError for anything else |
| `Workouts.WorkoutDate` | AWS/Lambda-APIgateway-DynamoDB/lambda_function.py:29 | `data` is the body's value when present and truthy, else the current timestamp |
| `Workouts.Put` | AWS/Lambda-APIgateway-DynamoDB/lambda_function.py:41 | after `put_item` the item is stored, other items with different ids are kept, and nothing new appears |
| `Workouts.PutFreshAppends` | AWS/Lambda-APIgateway-DynamoDB/lambda_function.py:41 | with an id no item carries, `put_item` appends exactly that item |
| `Workouts.BuildWorkout` | AWS/Lambda-APIgateway-DynamoDB/lambda_function.py:27-39 | a record is built iff the body is an object with `user_id`, `tipo` and `exercicios`; it has exactly the five keys, the supplied id, and copied fields |
| `Workouts.Dispatch` | AWS/Lambda-APIgateway-DynamoDB/lambda_function.py:13-56 | a returning dispatch answers 200, 201 or 404, and only 201 changes the table |
| `Workouts.Handler` | AWS/Lambda-APIgateway-DynamoDB/lambda_function.py:10-70 | status is one of 200, 201, 400, 404, 500; only 201 writes; 400 carries a missing-field message; 500 carries a non-KeyError exception |
| `Workouts.GetListsScannedItems` | AWS/Lambda-APIgateway-DynamoDB/lambda_function.py:16-22 | GET answers 200 with the scanned items (or `[]` without `Items`), leaves the table alone, and answers 500 on a failed scan |
| `Workouts.PostStoresWorkout` | AWS/Lambda-APIgateway-DynamoDB/lambda_function.py:24-50 | POST answers 201 iff the body decodes to an object with the three required fields and the write succeeds; the stored and echoed record is the built one |
| `Workouts.PostAppendsOneRecord` | AWS/Lambda-APIgateway-DynamoDB/lambda_function.py:41-50 | with a fresh uuid a 201 appends exactly the echoed record |
| `Workouts.MissingFieldRejected` | AWS/Lambda-APIgateway-DynamoDB/lambda_function.py:28-31 | a missing required field answers 400 naming the first one missing in reading order, and writes nothing |
| `Workouts.MissingRouteRejected` | AWS/Lambda-APIgateway-DynamoDB/lambda_function.py:14 | a missing `requestContext` or `routeKey` answers 400 naming that key |
| `Workouts.MalformedBodyRejected` | AWS/Lambda-APIgateway-DynamoDB/lambda_function.py:25 | a missing `body` answers 400; an undecodable or non-object body answers 500; none of them writes |
| `Workouts.OtherRouteNotFound` | AWS/Lambda-APIgateway-DynamoDB/lambda_function.py:52-56 | any other route key answers 404 "Rota não encontrada" with the table unchanged |

## Left out

- DOM construction is not modelled. This covers `innerHTML` templates, `getElementById` lookups, the early returns when a container element is missing, the `imgElement` null checks and the Bootstrap modal wiring. Each item card is modelled as owning its image element, which holds only when item ids within a category are unique (see the next two lines).
- MenuView.ItemImageSettles: holds only when item ids within the category are unique. The source addresses each image as `img-<category>-<item>` through `getElementById`, which returns the first element with that id, so with a duplicate item id both fetch callbacks update the first card and the second card stays hidden with its spinner showing.
- MenuView.ItemsAreIsolated: holds only when item ids within the category are unique, for the same reason. Two cards that share an item id share one image element in the source, and the fetch that settles last decides it.
- Asynchrony is not modelled: `fetch`, `response.json()`/`.text()`, `Promise.all` and the order in which concurrent image fetches complete. Each fetch is an input value, and each card is computed independently, as `MenuView.ItemsAreIsolated` states.
- `toFixed(2)` price formatting and numeric ratings are not modelled, because they are floating point. `preco` and `avaliacao` are carried as `real` and not used.
- The collation of `localeCompare` and the encoding of `encodeURIComponent` are not modelled. Both are abstract parameters.
- `inicializar` page routing and `URLSearchParams` parsing are not modelled, because they are browser glue. `QrCodes.DeepLinkId` reads an id back by position, not by query-string parsing.
- `renderizarRestaurantes` on a catalog whose `restaurantes` field is missing is not modelled. In the source it throws a TypeError outside any `try`. `Home.FeaturedCards` takes a sequence.
- A menu document without a `categorias` field is not modelled. In the source, `renderizarCardapio` would throw on it.
- Debug logging (`console.log`, `console.error`, `print`, `traceback`) is not modelled. Neither is the `json.dumps(event)` before the handler's `try`.
- The internals of boto3 and DynamoDB are not modelled. The scan's `Items` is an input that is not tied to the table, and scan pagination is ignored, as the source ignores it.
- Workouts.Put: assumes the table's key is the `id` attribute. The key schema is set when the table is created, outside the handler's code.
- `Workouts.Handler`: the text of a 500 body is `str(e)` of the exception carried in the body. Python's exact TypeError and JSONDecodeError messages are not reproduced.
- JSON numbers are modelled as integers only. A body `data` of `0.0` is falsy in Python like `0`, but floats are not represented.

=== FILE: catalog.dfy ===
/** The restaurant and menu documents, the loaders that turn a fetch outcome
    into data, lookup by identifier and the name-sorted copy shared by the
    full listing and the QR listing. */
module Catalog {
  import opened Wrappers
  import opened Paths
  import Sequences
  import Sorting

  /** One entry of the catalog document `data/restaurantes.json`. */
  datatype Restaurant = Restaurant(
    id: string,
    nome: string,
    tipo: string,
    imagem: string,
    avaliacao: real,
    endereco: string,
    telefone: string,
    horario: string,
    destaque: bool)

  /** One dish of a menu category. */
  datatype Item = Item(
    id: string,
    nome: string,
    descricao: string,
    preco: real,
    imagem: string,
    destaque: bool)

  datatype Category = Category(id: string, nome: string, icone: string, itens: seq<Item>)

  /** The menu document `data/cardapios/<id>.json`. */
  datatype Menu = Menu(categorias: seq<Category>)

  /** The parsed catalog document; `restaurantes` is None when the field is absent. */
  datatype CatalogDoc = CatalogDoc(restaurantes: Option<seq<Restaurant>>)

  /** What `fetch(url)` followed by `response.json()` yields: the parsed
      document, or a failure (network error, or a body that is not JSON). */
  datatype Fetched<T> = Document(doc: T) | FetchFailed

  /** What a listing page shows: the warning for an empty catalog, or one entry
      per restaurant. */
  datatype Listing<T> = EmptyState(message: string) | Entries(entries: seq<T>)

  const CatalogFile: string := "data/restaurantes.json"
  const MenuDirectory: string := "data/cardapios/"
  const NoRestaurantsMessage: string := "Nenhum restaurante disponível no momento."

  /** The catalog handed to the renderers: the document's `restaurantes` field
      (None when the field is missing), or the empty catalog when the fetch or
      the parse failed. Failures are absorbed, never passed to the caller. */
  function CatalogOf(fetched: Fetched<CatalogDoc>): (r: Option<seq<Restaurant>>)
    ensures fetched.FetchFailed? ==> r == Some([])
    ensures r.None? ==> fetched.Document? && fetched.doc.restaurantes.None?
    ensures fetched.Document? && fetched.doc.restaurantes.Some? ==> r == fetched.doc.restaurantes
  {
    match fetched
    case Document(doc) => doc.restaurantes
    case FetchFailed => Some([])
  }

  /** URL of the catalog document as seen from the page at `pathname`. */
  function CatalogUrl(pathname: string): string {
    BasePath(pathname) + CatalogFile
  }

  /** Home/restaurant-page catalog loader: fetches the catalog relative to the
      current page. */
  function LoadCatalog(pathname: string, fetch: string -> Fetched<CatalogDoc>): (r: Option<seq<Restaurant>>)
    ensures fetch(CatalogUrl(pathname)).FetchFailed? ==> r == Some([])
    ensures r.None? ==> fetch(CatalogUrl(pathname)).Document?
    ensures fetch(CatalogUrl(pathname)).Document? ==> r == fetch(CatalogUrl(pathname)).doc.restaurantes
  {
    CatalogOf(fetch(CatalogUrl(pathname)))
  }

  /** The loader reads nothing but the catalog document addressed from the
      current page: from a page under "/pages/" that is "../data/restaurantes.json",
      elsewhere "data/restaurantes.json". */
  lemma LoadCatalogReadsOneUrl(pathname: string, f: string -> Fetched<CatalogDoc>, g: string -> Fetched<CatalogDoc>)
    requires f(CatalogUrl(pathname)) == g(CatalogUrl(pathname))
    ensures LoadCatalog(pathname, f) == LoadCatalog(pathname, g)
    ensures CatalogUrl(pathname) == (if OnNestedPage(pathname) then "../data/restaurantes.json" else "data/restaurantes.json")
  {
  }

  /** URL of the menu document of restaurant `id` as seen from the page at `pathname`. */
  function MenuUrl(pathname: string, id: string): string {
    BasePath(pathname) + MenuDirectory + id + ".json"
  }

  /** Menu loader: the parsed menu, or a menu with no categories when the fetch
      or the parse failed. */
  function LoadMenu(pathname: string, id: string, fetch: string -> Fetched<Menu>): (r: Menu)
    ensures fetch(MenuUrl(pathname, id)).FetchFailed? ==> r.categorias == []
    ensures fetch(MenuUrl(pathname, id)).Document? ==> r == fetch(MenuUrl(pathname, id)).doc
  {
    match fetch(MenuUrl(pathname, id))
    case Document(m) => m
    case FetchFailed => Menu([])
  }

  /** Each restaurant's menu is fetched from its own document: a menu loader
      reads nothing but the URL for the given identifier. */
  lemma LoadMenuReadsOneUrl(pathname: string, id: string, f: string -> Fetched<Menu>, g: string -> Fetched<Menu>)
    requires f(MenuUrl(pathname, id)) == g(MenuUrl(pathname, id))
    ensures LoadMenu(pathname, id, f) == LoadMenu(pathname, id, g)
    ensures MenuUrl(pathname, id) == BasePath(pathname) + "data/cardapios/" + id + ".json"
  {
  }

  /** The restaurant with identifier `id` as the detail page looks it up: the
      first catalog entry with that id, or None when there is none. A missing
      catalog makes the lookup fail inside the `try`, which also gives None. */
  function FindRestaurant(catalog: Option<seq<Restaurant>>, id: string): (r: Option<Restaurant>)
    ensures r.Some? ==> catalog.Some? && r.value.id == id
    ensures r.Some? ==> exists k :: (0 <= k < |catalog.value| && catalog.value[k] == r.value
                                     && forall j :: 0 <= j < k ==> catalog.value[j].id != id)
    ensures r.None? <==> catalog.None? || forall k :: 0 <= k < |catalog.value| ==> catalog.value[k].id != id
  {
    match catalog
    case None => None
    case Some(rs) =>
      match Sequences.FindFirst(rs, (x: Restaurant) => x.id == id)
      case None => None
      case Some(k) => Some(rs[k])
  }

  /** When identifiers are unique, the lookup returns the one entry that carries the identifier. */
  lemma FindRestaurantUnique(rs: seq<Restaurant>, k: nat)
    requires k < |rs|
    requires forall i, j :: 0 <= i < |rs| && 0 <= j < |rs| && rs[i].id == rs[j].id ==> i == j
    ensures FindRestaurant(Some(rs), rs[k].id) == Some(rs[k])
  {
  }

  /** A listing has something to show: the catalog is present and not empty. */
  predicate HasRestaurants(catalog: Option<seq<Restaurant>>) {
    catalog.Some? && |catalog.value| > 0
  }

  /** `localeCompare` is modelled by an abstract comparison returning a
      negative, zero or positive number; `a` sorts no later than `b` when the
      comparison of their names is not positive. */
  function NameOrder(cmp: (string, string) -> int): (Restaurant, Restaurant) -> bool {
    (a: Restaurant, b: Restaurant) => cmp(a.nome, b.nome) <= 0
  }

  /** The comparison orders strings consistently (total and transitive). */
  ghost predicate ConsistentComparison(cmp: (string, string) -> int) {
    && (forall x, y :: cmp(x, y) <= 0 || cmp(y, x) <= 0)
    && (forall x, y, z :: cmp(x, y) <= 0 && cmp(y, z) <= 0 ==> cmp(x, z) <= 0)
  }

  /** A consistent comparison of names orders restaurants consistently. */
  lemma NameOrderIsPreorder(cmp: (string, string) -> int)
    requires ConsistentComparison(cmp)
    ensures Sorting.TotalPreorder(NameOrder(cmp))
  {
    var leq := NameOrder(cmp);
    forall a: Restaurant, b: Restaurant ensures leq(a, b) || leq(b, a) {
      assert cmp(a.nome, b.nome) <= 0 || cmp(b.nome, a.nome) <= 0;
    }
    forall a: Restaurant, b: Restaurant, c: Restaurant | leq(a, b) && leq(b, c) ensures leq(a, c) {
      assert cmp(a.nome, b.nome) <= 0 && cmp(b.nome, c.nome) <= 0;
    }
  }

  /** The comparison ties only equal strings. */
  ghost predicate StrictComparison(cmp: (string, string) -> int) {
    forall x, y :: cmp(x, y) <= 0 && cmp(y, x) <= 0 ==> x == y
  }

  ghost predicate DistinctNames(rs: seq<Restaurant>) {
    forall i, j :: 0 <= i < |rs| && 0 <= j < |rs| && rs[i].nome == rs[j].nome ==> i == j
  }

  /** No two entries of the catalog tie under the comparison: the exact
      condition for the sorted order to be fixed by the names alone. */
  ghost predicate NoNameTies(rs: seq<Restaurant>, cmp: (string, string) -> int) {
    forall i, j :: (&& 0 <= i < |rs| && 0 <= j < |rs|
                    && cmp(rs[i].nome, rs[j].nome) <= 0 && cmp(rs[j].nome, rs[i].nome) <= 0) ==> i == j
  }

  /** Distinct names under a comparison that ties only equal strings never
      tie; a comparison such as `localeCompare`, which ties canonically
      equivalent strings, needs the weaker `NoNameTies` directly. */
  lemma DistinctNamesHaveNoTies(rs: seq<Restaurant>, cmp: (string, string) -> int)
    requires StrictComparison(cmp) && DistinctNames(rs)
    ensures NoNameTies(rs, cmp)
  {
  }

  ghost predicate SortedByName(rs: seq<Restaurant>, cmp: (string, string) -> int) {
    forall i, j :: 0 <= i < j < |rs| ==> cmp(rs[i].nome, rs[j].nome) <= 0
  }

  /** `[...restaurantes].sort((a, b) => a.nome.localeCompare(b.nome))`: a stable
      sort of a copy; the catalog itself is a value and stays as it was. */
  function SortByName(rs: seq<Restaurant>, cmp: (string, string) -> int): (r: seq<Restaurant>)
    ensures |r| == |rs|
    ensures multiset(r) == multiset(rs)
  {
    Sorting.Sort(rs, NameOrder(cmp))
  }

  /** With a consistent comparison the copy is in name order. */
  lemma SortByNameSorted(rs: seq<Restaurant>, cmp: (string, string) -> int)
    requires ConsistentComparison(cmp)
    ensures SortedByName(SortByName(rs, cmp), cmp)
  {
    var leq := NameOrder(cmp);
    NameOrderIsPreorder(cmp);
    Sorting.SortSorted(rs, leq);
  }

  /** The order of the listing does not depend on the order of the catalog:
      any rearrangement of a catalog no two of whose names tie under the
      comparison sorts to the same sequence. */
  lemma SortByNameOrderIndependent(a: seq<Restaurant>, b: seq<Restaurant>, cmp: (string, string) -> int)
    requires ConsistentComparison(cmp)
    requires NoNameTies(a, cmp)
    requires multiset(a) == multiset(b)
    ensures SortByName(a, cmp) == SortByName(b, cmp)
  {
    var leq := NameOrder(cmp);
    NameOrderIsPreorder(cmp);
    forall x, y | x in a && y in a && leq(x, y) && leq(y, x) ensures x == y {
      var i :| 0 <= i < |a| && a[i] == x;
      var j :| 0 <= j < |a| && a[j] == y;
    }
    Sorting.SortPermutationInvariant(a, b, leq);
  }

  /** Restaurants whose names tie under the comparison keep their catalog
      order in the sorted copy. */
  lemma SortByNameStable(rs: seq<Restaurant>, cmp: (string, string) -> int, x: Restaurant)
    requires ConsistentComparison(cmp)
    ensures Sequences.Filter(SortByName(rs, cmp), Sorting.TiedWith(NameOrder(cmp), x))
            == Sequences.Filter(rs, Sorting.TiedWith(NameOrder(cmp), x))
  {
    var leq := NameOrder(cmp);
    NameOrderIsPreorder(cmp);
    Sorting.SortStable(rs, leq, x);
  }
}

=== FILE: home.dfy ===
/** The home page: the featured-restaurant showcase and the full, name-sorted
    restaurant listing shown in the picker. */
module Home {
  import opened Wrappers
  import opened Catalog
  import opened Paths
  import Sequences
  import Sorting

  /** Detail-page address, relative to the `pages/` directory, without the id. */
  const RestaurantPage: string := "restaurante.html?id="

  /** A showcase card: the restaurant, its "Ver Cardápio" link and whether it
      carries the "Destaque" badge. */
  datatype FeaturedCard = FeaturedCard(restaurant: Restaurant, href: string, badge: bool)

  /** A row of the full listing and the detail-page link it carries. */
  datatype ListingRow = ListingRow(restaurant: Restaurant, href: string)

  /** The restaurants flagged `destaque`, in catalog order. */
  function Flagged(rs: seq<Restaurant>): seq<Restaurant> {
    Sequences.Filter(rs, (r: Restaurant) => r.destaque)
  }

  function Min(a: int, b: int): int {
    if a < b then a else b
  }

  /** The showcase selection: the flagged restaurants when there is at least
      one, otherwise the first three restaurants of the catalog. */
  function SelectFeatured(rs: seq<Restaurant>): (r: seq<Restaurant>)
    ensures (exists i :: 0 <= i < |rs| && rs[i].destaque) ==>
              forall x :: x in r <==> x in rs && x.destaque
    ensures (forall i :: 0 <= i < |rs| ==> !rs[i].destaque) ==>
              |r| == Min(3, |rs|) && r <= rs
    ensures |rs| > 0 ==> |r| > 0
  {
    var flagged := Flagged(rs);
    if |flagged| > 0 then
      assert flagged[0] in flagged;
      flagged
    else rs[..Min(3, |rs|)]
  }

  /** In the flagged case the showcase is exactly the catalog with the
      unflagged entries dropped: splitting the catalog anywhere splits the
      showcase at the same place, so catalog order is kept. */
  lemma {:induction false} FeaturedKeepsCatalogOrder(a: seq<Restaurant>, b: seq<Restaurant>)
    requires exists i :: 0 <= i < |a + b| && (a + b)[i].destaque
    ensures SelectFeatured(a + b) == Flagged(a) + Flagged(b)
  {
    var i :| 0 <= i < |a + b| && (a + b)[i].destaque;
    assert (a + b)[i] in Flagged(a + b);
    Sequences.FilterConcat(a, b, (r: Restaurant) => r.destaque);
  }

  /** The showcase cards of `renderizarRestaurantes`. Their link always uses
      the "pages/" prefix, since the showcase lives on the root page. */
  function FeaturedCards(rs: seq<Restaurant>): (r: seq<FeaturedCard>)
    ensures |r| == |SelectFeatured(rs)|
    ensures forall k :: 0 <= k < |r| ==>
              && r[k].restaurant == SelectFeatured(rs)[k]
              && r[k].href == "pages/" + RestaurantPage + r[k].restaurant.id
              && r[k].badge == r[k].restaurant.destaque
  {
    var selected := SelectFeatured(rs);
    seq(|selected|, k requires 0 <= k < |selected| =>
      FeaturedCard(selected[k], "pages/" + RestaurantPage + selected[k].id, selected[k].destaque))
  }

  /** Badges are all-or-nothing: when some restaurant is flagged every card
      carries the badge, and in the first-three fallback none does. */
  lemma FeaturedBadges(rs: seq<Restaurant>)
    ensures (exists i :: 0 <= i < |rs| && rs[i].destaque) ==>
              forall k :: 0 <= k < |FeaturedCards(rs)| ==> FeaturedCards(rs)[k].badge
    ensures (forall i :: 0 <= i < |rs| ==> !rs[i].destaque) ==>
              forall k :: 0 <= k < |FeaturedCards(rs)| ==> !FeaturedCards(rs)[k].badge
  {
    var cards := FeaturedCards(rs);
    var selected := SelectFeatured(rs);
    forall k | 0 <= k < |cards| ensures cards[k].restaurant in selected {
      assert cards[k].restaurant == selected[k];
    }
    if forall i :: 0 <= i < |rs| ==> !rs[i].destaque {
      forall k | 0 <= k < |cards| ensures !cards[k].badge {
        assert selected[k] == rs[k];
      }
    }
  }

  /** The full listing of `renderizarListaRestaurantes`: the warning for a
      missing or empty catalog, otherwise one row per restaurant in name order,
      linking to the detail page from the current page. */
  function FullListing(catalog: Option<seq<Restaurant>>, pathname: string, cmp: (string, string) -> int)
    : (r: Listing<ListingRow>)
    ensures r.EmptyState? <==> !HasRestaurants(catalog)
    ensures r.EmptyState? ==> r.message == NoRestaurantsMessage
    ensures r.Entries? ==> |r.entries| == |catalog.value|
    ensures r.Entries? ==> forall k :: 0 <= k < |r.entries| ==>
              && r.entries[k].restaurant == SortByName(catalog.value, cmp)[k]
              && r.entries[k].href == PagesPrefix(pathname) + RestaurantPage + r.entries[k].restaurant.id
  {
    if !HasRestaurants(catalog) then EmptyState(NoRestaurantsMessage)
    else
      var sorted := SortByName(catalog.value, cmp);
      Entries(seq(|sorted|, k requires 0 <= k < |sorted| =>
        ListingRow(sorted[k], PagesPrefix(pathname) + RestaurantPage + sorted[k].id)))
  }

  function RowRestaurants(rows: seq<ListingRow>): (r: seq<Restaurant>)
    ensures |r| == |rows|
    ensures forall k :: 0 <= k < |rows| ==> r[k] == rows[k].restaurant
  {
    seq(|rows|, k requires 0 <= k < |rows| => rows[k].restaurant)
  }

  /** The listing shows every restaurant of the catalog exactly once, in name
      order when the comparison is consistent. */
  lemma FullListingContents(catalog: Option<seq<Restaurant>>, pathname: string, cmp: (string, string) -> int)
    requires HasRestaurants(catalog)
    ensures multiset(RowRestaurants(FullListing(catalog, pathname, cmp).entries)) == multiset(catalog.value)
    ensures ConsistentComparison(cmp) ==>
              SortedByName(RowRestaurants(FullListing(catalog, pathname, cmp).entries), cmp)
  {
    var shown := RowRestaurants(FullListing(catalog, pathname, cmp).entries);
    assert shown == SortByName(catalog.value, cmp);
    if ConsistentComparison(cmp) {
      SortByNameSorted(catalog.value, cmp);
    }
  }

  /** Rearranging a catalog no two of whose names tie under the comparison
      does not change the listing. */
  lemma FullListingOrderIndependent(a: seq<Restaurant>, b: seq<Restaurant>, pathname: string, cmp: (string, string) -> int)
    requires ConsistentComparison(cmp)
    requires NoNameTies(a, cmp)
    requires multiset(a) == multiset(b)
    ensures FullListing(Some(a), pathname, cmp) == FullListing(Some(b), pathname, cmp)
  {
    SortByNameOrderIndependent(a, b, cmp);
    if |a| == 0 {
      assert |multiset(b)| == 0;
    } else {
      assert |b| == |multiset(b)| == |a|;
      var la, lb := FullListing(Some(a), pathname, cmp), FullListing(Some(b), pathname, cmp);
      assert la.entries == lb.entries;
    }
  }

  /** A catalog of three unflagged restaurants "Zeta", "Alpha", "Mu":
      the showcase is the catalog as given ... */
  lemma ThreeUnflaggedShowcase(z: Restaurant, a: Restaurant, m: Restaurant)
    requires !z.destaque && !a.destaque && !m.destaque
    ensures SelectFeatured([z, a, m]) == [z, a, m]
  {
  }

  /** ... and the listing is Alpha, Mu, Zeta. */
  lemma ThreeUnflaggedListing(z: Restaurant, a: Restaurant, m: Restaurant, cmp: (string, string) -> int)
    requires z.nome == "Zeta" && a.nome == "Alpha" && m.nome == "Mu"
    requires cmp("Alpha", "Mu") < 0 && cmp("Zeta", "Alpha") > 0 && cmp("Zeta", "Mu") > 0
    ensures RowRestaurants(FullListing(Some([z, a, m]), "/index.html", cmp).entries) == [a, m, z]
  {
    ThreeNamesSorted(z, a, m, NameOrder(cmp));
  }

  lemma ThreeNamesSorted(z: Restaurant, a: Restaurant, m: Restaurant, leq: (Restaurant, Restaurant) -> bool)
    requires !leq(z, a) && !leq(z, m) && leq(a, m)
    ensures Sorting.Sort([z, a, m], leq) == [a, m, z]
  {
    assert [z, a, m][1..] == [a, m];
    assert [a, m][1..] == [m];
    assert [m][1..] == [];
    assert Sorting.Sort([m], leq) == [m];
    assert Sorting.Sort([a, m], leq) == Sorting.Insert(a, [m], leq) == [a, m];
    assert Sorting.Insert(z, [m], leq) == [m, z];
    assert Sorting.Insert(z, [a, m], leq) == [a, m, z];
  }
}

=== FILE: menu_view.dfy ===
/** The restaurant page's menu: the category switcher (one piece of state, the
    active category) and the per-item image protocol that sniffs fetched
    content for an inline `data:` payload. */
module MenuView {
  import opened Wrappers
  import opened Strings
  import opened Paths
  import opened Catalog
  import Sequences

  /** What `fetch(path).then(r => r.text())` yields: the body text (an HTTP
      error status still yields its body), or a rejection (network failure,
      unreadable body). */
  datatype FetchText = Text(content: string) | NetworkError

  /** The browser's outcome of loading an image from a given `src`. */
  datatype ImageLoad = Loaded | LoadError

  /** The I/O a menu rendering depends on, passed in as functions of the URL. */
  datatype Browser = Browser(fetchText: string -> FetchText, loadImage: string -> ImageLoad)

  /** The visible state of one item image: its source, whether the image is
      shown, whether the loading spinner is hidden, and whether the neutral
      placeholder styling of the image `onerror` handler was applied. */
  datatype ImageView = ImageView(src: string, displayed: bool, spinnerHidden: bool, placeholderStyle: bool)

  /** A rendered item card: the item, its image, and the "Destaque" badge. */
  datatype ItemCard = ItemCard(item: Item, image: ImageView, badge: bool)

  /** The category switcher's state: which category entries carry the
      `active` class (by position) and the item cards on display. */
  datatype MenuState = MenuState(active: set<nat>, cards: seq<ItemCard>)

  const DataPrefix: string := "data:"
  const FallbackImage: string := "img/pao-de-queijo.jpg"

  /** The image source an item's card ends up with after the content fetch:
      an inline `data:` payload is used verbatim, any other content means the
      path itself is the image, and a failed fetch selects the fallback image.
      Every outcome shows the image and hides the spinner. */
  function ResolveImage(base: string, item: Item, fetched: FetchText): (v: ImageView)
    ensures v.displayed && v.spinnerHidden && !v.placeholderStyle
    ensures fetched.Text? && StartsWith(fetched.content, DataPrefix) ==> v.src == fetched.content
    ensures fetched.Text? && !StartsWith(fetched.content, DataPrefix) ==> v.src == base + item.imagem
    ensures fetched.NetworkError? ==> v.src == base + FallbackImage
  {
    match fetched
    case Text(content) =>
      if StartsWith(content, DataPrefix) then ImageView(content, true, true, false)
      else ImageView(base + item.imagem, true, true, false)
    case NetworkError => ImageView(base + FallbackImage, true, true, false)
  }

  /** The `onload` / `onerror` attributes of the image element: both show the
      image and hide the spinner; only an error adds the placeholder styling. */
  function OnImageEvent(v: ImageView, load: ImageLoad): (w: ImageView)
    ensures w.src == v.src
    ensures w.displayed && w.spinnerHidden
    ensures w.placeholderStyle <==> v.placeholderStyle || load == LoadError
  {
    match load
    case Loaded => v.(displayed := true, spinnerHidden := true)
    case LoadError => v.(displayed := true, spinnerHidden := true, placeholderStyle := true)
  }

  /** The final card of one item, rendered from the page at base path `base`:
      it shows the item with the "Destaque" badge exactly when the item is
      flagged, its image ends up shown with the spinner hidden, and the
      placeholder styling appears exactly when its final source fails to load. */
  function RenderItem(base: string, item: Item, browser: Browser): (c: ItemCard)
    ensures c.item == item && c.badge == item.destaque
    ensures c.image.displayed && c.image.spinnerHidden
    ensures c.image.placeholderStyle <==> browser.loadImage(c.image.src) == LoadError
  {
    var resolved := ResolveImage(base, item, browser.fetchText(base + item.imagem));
    ItemCard(item, OnImageEvent(resolved, browser.loadImage(resolved.src)), item.destaque)
  }

  /** Every item image ends up visible with its spinner hidden, whatever the
      fetch and the image load do, and an image that loads is never styled as
      a placeholder. */
  lemma ItemImageSettles(base: string, item: Item, browser: Browser)
    ensures RenderItem(base, item, browser).image.displayed
    ensures RenderItem(base, item, browser).image.spinnerHidden
    ensures var v := RenderItem(base, item, browser).image;
      v.placeholderStyle <==> browser.loadImage(v.src) == LoadError
  {
  }

  /** An item's card depends only on the fetch of its own image path and the
      load of the source that fetch selects: what the browser does with any
      other path or source cannot change it. */
  lemma ItemsAreIsolated(base: string, item: Item, b1: Browser, b2: Browser)
    requires b1.fetchText(base + item.imagem) == b2.fetchText(base + item.imagem)
    requires var src := ResolveImage(base, item, b1.fetchText(base + item.imagem)).src;
      b1.loadImage(src) == b2.loadImage(src)
    ensures RenderItem(base, item, b1) == RenderItem(base, item, b2)
  {
    var r1 := ResolveImage(base, item, b1.fetchText(base + item.imagem));
    assert b1.loadImage(r1.src) == b2.loadImage(r1.src);
  }

  /** `mostrarItensCategoria`: the cards of the first category with identifier
      `id`, in document order, or no cards when there is no such category. */
  function ShowCategory(menu: Menu, id: string, pathname: string, browser: Browser): (r: seq<ItemCard>)
    ensures (forall k :: 0 <= k < |menu.categorias| ==> menu.categorias[k].id != id) ==> r == []
    ensures forall k :: (&& 0 <= k < |menu.categorias| && menu.categorias[k].id == id
                         && (forall j :: 0 <= j < k ==> menu.categorias[j].id != id)) ==>
                && |r| == |menu.categorias[k].itens|
                && forall n :: 0 <= n < |r| ==> r[n] == RenderItem(BasePath(pathname), menu.categorias[k].itens[n], browser)
  {
    match Sequences.FindFirst(menu.categorias, (c: Category) => c.id == id)
    case None => []
    case Some(k) =>
      var itens := menu.categorias[k].itens;
      seq(|itens|, n requires 0 <= n < |itens| => RenderItem(BasePath(pathname), itens[n], browser))
  }

  /** The items on display are those of the category: item `n` of the cards
      is item `n` of the category. */
  function ShownItems(cards: seq<ItemCard>): (r: seq<Item>)
    ensures |r| == |cards|
    ensures forall n :: 0 <= n < |cards| ==> r[n] == cards[n].item
  {
    seq(|cards|, n requires 0 <= n < |cards| => cards[n].item)
  }

  ghost predicate UniqueCategoryIds(menu: Menu) {
    forall i, j :: (0 <= i < |menu.categorias| && 0 <= j < |menu.categorias|
                    && menu.categorias[i].id == menu.categorias[j].id) ==> i == j
  }

  /** `renderizarCardapio`: the first category is active and its items are on
      display; a menu without categories shows nothing and has no active entry. */
  function Render(menu: Menu, pathname: string, browser: Browser): (s: MenuState)
    ensures |menu.categorias| == 0 ==> s.active == {} && s.cards == []
    ensures |menu.categorias| > 0 ==> s.active == {0}
    ensures |menu.categorias| > 0 ==> ShownItems(s.cards) == menu.categorias[0].itens
  {
    if |menu.categorias| == 0 then MenuState({}, [])
    else
      var cards := ShowCategory(menu, menu.categorias[0].id, pathname, browser);
      assert ShownItems(cards) == menu.categorias[0].itens;
      MenuState({0}, cards)
  }

  /** Clicking category entry `i` in state `s`: every `.menu-category` entry
      of the document loses `active`, entry `i` gains it, and the item list is
      rebuilt for that category's identifier. Nothing of `s` is read. */
  function Click(menu: Menu, pathname: string, browser: Browser, s: MenuState, i: nat): (t: MenuState)
    requires i < |menu.categorias|
    ensures t.active == {i}
    ensures UniqueCategoryIds(menu) ==> ShownItems(t.cards) == menu.categorias[i].itens
  {
    var cards := ShowCategory(menu, menu.categorias[i].id, pathname, browser);
    assert UniqueCategoryIds(menu) ==> ShownItems(cards) == menu.categorias[i].itens;
    MenuState({i}, cards)
  }

  /** Nothing of the prior state survives a click: from any two states a
      click leads to the same state. */
  lemma ClickForgetsPriorState(menu: Menu, pathname: string, browser: Browser, s1: MenuState, s2: MenuState, i: nat)
    requires i < |menu.categorias|
    ensures Click(menu, pathname, browser, s1, i) == Click(menu, pathname, browser, s2, i)
  {
  }

  /** The state after rendering and then clicking the entries `clicks`, in order. */
  function Session(menu: Menu, pathname: string, browser: Browser, clicks: seq<nat>): MenuState
    requires forall n :: 0 <= n < |clicks| ==> clicks[n] < |menu.categorias|
  {
    if |clicks| == 0 then Render(menu, pathname, browser)
    else Click(menu, pathname, browser, Session(menu, pathname, browser, clicks[..|clicks| - 1]), clicks[|clicks| - 1])
  }

  /** In any session on a menu with categories and unique identifiers, exactly
      one category is active (the last one clicked, or the first category
      before any click) and exactly its items are on display, in document order. */
  lemma SessionInvariant(menu: Menu, pathname: string, browser: Browser, clicks: seq<nat>)
    requires |menu.categorias| > 0
    requires UniqueCategoryIds(menu)
    requires forall n :: 0 <= n < |clicks| ==> clicks[n] < |menu.categorias|
    ensures var s := Session(menu, pathname, browser, clicks);
      var c := if |clicks| == 0 then 0 else clicks[|clicks| - 1];
      && s.active == {c}
      && ShownItems(s.cards) == menu.categorias[c].itens
  {
  }

  /** The item list is left empty exactly when no category has the
      identifier or the first one that has it holds no items. */
  lemma EmptyItemListIff(menu: Menu, id: string, pathname: string, browser: Browser)
    ensures ShowCategory(menu, id, pathname, browser) == [] <==>
            forall k :: (&& 0 <= k < |menu.categorias| && menu.categorias[k].id == id
                         && (forall j :: 0 <= j < k ==> menu.categorias[j].id != id)) ==>
                        menu.categorias[k].itens == []
  {
  }
}

=== FILE: paths.dfy ===
/** Page-relative path prefixes: the same scripts run from the site root and
    from pages one directory down, so asset and page links are prefixed
    according to the page the browser is showing. */
module Paths {
  import opened Strings

  /** The path segment that marks a page nested one directory down. */
  const PagesSegment: string := "/pages/"

  /** The page at `pathname` sits in the `pages/` directory. The test is a
      single-level heuristic: any occurrence of the segment counts. */
  predicate OnNestedPage(pathname: string) {
    Includes(pathname, PagesSegment)
  }

  /** Prefix that reaches the site root (where `data/` and `img/` live) from
      the page at `pathname`. */
  function BasePath(pathname: string): (r: string)
    ensures r == "../" <==> Includes(pathname, PagesSegment)
    ensures r == "" <==> !Includes(pathname, PagesSegment)
  {
    if OnNestedPage(pathname) then "../" else ""
  }

  /** Prefix that reaches the `pages/` directory from the page at `pathname`,
      used by the full restaurant listing. */
  function PagesPrefix(pathname: string): (r: string)
    ensures r == "" <==> Includes(pathname, PagesSegment)
    ensures r == "pages/" <==> !Includes(pathname, PagesSegment)
  {
    if OnNestedPage(pathname) then "" else "pages/"
  }

  /** The base path is one directory up exactly when "/pages/" occurs somewhere
      in the pathname, and empty otherwise. */
  lemma BasePathOccurrence(pathname: string)
    ensures BasePath(pathname) == "../" <==> exists i :: OccursAt(pathname, PagesSegment, i)
    ensures BasePath(pathname) == "" <==> !exists i :: OccursAt(pathname, PagesSegment, i)
  {
    IncludesIff(pathname, PagesSegment);
  }

  /** Both prefixes lead to the same directory: exactly one of them is empty,
      and the site-root prefix followed by "pages/" is the pages prefix seen
      from one level further down. */
  lemma PrefixesAgree(pathname: string)
    ensures (BasePath(pathname) == "") != (PagesPrefix(pathname) == "")
    ensures BasePath(pathname) == "" ==> PagesPrefix(pathname) == BasePath(pathname) + "pages/"
  {
  }
}

=== FILE: qrcodes.dfy ===
/** The QR-code page: one card per restaurant, in name order, each with a deep
    link to the restaurant's page and a QR image produced by an external
    service from that link. */
module QrCodes {
  import opened Wrappers
  import opened Strings
  import opened Catalog
  import Home

  /** The QR page always lives under `pages/`, so it reads the catalog from here. */
  const QrCatalogUrl: string := "../data/restaurantes.json"
  const DeepLinkPath: string := "/pages/restaurante.html?id="
  const DeepLinkFlag: string := "&showQR=true"
  const QrService: string := "https://api.qrserver.com/v1/create-qr-code/?size=200x200&data="

  /** A card of the QR page: the restaurant, its deep link, the QR image
      source and the "Abrir Cardápio" link. */
  datatype QrCard = QrCard(restaurant: Restaurant, link: string, qrSrc: string, openHref: string)

  /** The QR page's catalog loader: a fixed URL, and the empty catalog on failure. */
  function LoadCatalog(fetch: string -> Fetched<CatalogDoc>): (r: Option<seq<Restaurant>>)
    ensures fetch(QrCatalogUrl).FetchFailed? ==> r == Some([])
    ensures r.None? ==> fetch(QrCatalogUrl).Document?
    ensures fetch(QrCatalogUrl).Document? ==> r == fetch(QrCatalogUrl).doc.restaurantes
  {
    CatalogOf(fetch(QrCatalogUrl))
  }

  /** The home page's and the QR page's catalog loaders return the same
      catalog when the main script runs on a page under "/pages/". */
  lemma LoadersAgreeUnderPages(pathname: string, fetch: string -> Fetched<CatalogDoc>)
    requires Includes(pathname, Paths.PagesSegment)
    ensures LoadCatalog(fetch) == Catalog.LoadCatalog(pathname, fetch)
  {
    assert Paths.BasePath(pathname) + CatalogFile == QrCatalogUrl;
  }

  /** The fully-qualified address of restaurant `id`'s page with the QR flag set. */
  function DeepLink(origin: string, id: string): (r: string)
    ensures StartsWith(r, origin + DeepLinkPath)
    ensures |r| == |origin| + |DeepLinkPath| + |id| + |DeepLinkFlag|
  {
    var r := origin + DeepLinkPath + id + DeepLinkFlag;
    assert r[..|origin + DeepLinkPath|] == origin + DeepLinkPath;
    r
  }

  /** Reads the restaurant identifier back out of a deep link. */
  function DeepLinkId(origin: string, link: string): (r: Option<string>)
    ensures r.Some? ==> |origin| + |DeepLinkPath| + |r.value| + |DeepLinkFlag| == |link|
  {
    var head := origin + DeepLinkPath;
    if StartsWith(link, head) && |head| + |DeepLinkFlag| <= |link|
       && link[|link| - |DeepLinkFlag|..] == DeepLinkFlag
    then Some(link[|head|..|link| - |DeepLinkFlag|])
    else None
  }

  /** Every deep link names the restaurant it was built for: the id is
      recovered from its position in the link. */
  lemma DeepLinkRoundTrip(origin: string, id: string)
    ensures DeepLinkId(origin, DeepLink(origin, id)) == Some(id)
  {
    var head := origin + DeepLinkPath;
    var link := DeepLink(origin, id);
    assert link == head + id + DeepLinkFlag;
    assert link[|link| - |DeepLinkFlag|..] == DeepLinkFlag;
    assert link[|head|..|link| - |DeepLinkFlag|] == id;
  }

  /** Distinct ids give distinct links. */
  lemma DeepLinkInjective(origin: string, a: string, b: string)
    requires DeepLink(origin, a) == DeepLink(origin, b)
    ensures a == b
  {
    DeepLinkRoundTrip(origin, a);
    DeepLinkRoundTrip(origin, b);
  }

  /** The QR image address: the service URL followed by the encoded link.
      `encodeURIComponent` is an abstract encoder. */
  function QrImageSrc(link: string, encode: string -> string): (r: string)
    ensures StartsWith(r, QrService)
    ensures r[|QrService|..] == encode(link)
  {
    var r := QrService + encode(link);
    assert r[..|QrService|] == QrService;
    r
  }

  /** The card of one restaurant: the QR image encodes the deep link, while
      the button opens the deep link unencoded. */
  function CardFor(r: Restaurant, origin: string, encode: string -> string): (c: QrCard)
    ensures c.restaurant == r
    ensures DeepLinkId(origin, c.openHref) == Some(r.id)
    ensures c.qrSrc == QrService + encode(c.openHref)
  {
    var link := DeepLink(origin, r.id);
    DeepLinkRoundTrip(origin, r.id);
    QrCard(r, link, QrImageSrc(link, encode), link)
  }

  /** `renderizarQRCodes`: the warning for a missing or empty catalog,
      otherwise one card per restaurant of the name-sorted copy. */
  function QrListing(catalog: Option<seq<Restaurant>>, origin: string, cmp: (string, string) -> int,
                     encode: string -> string): (r: Listing<QrCard>)
    ensures r.EmptyState? <==> !HasRestaurants(catalog)
    ensures r.EmptyState? ==> r.message == NoRestaurantsMessage
    ensures r.Entries? ==> |r.entries| == |catalog.value|
    ensures r.Entries? ==> forall k :: 0 <= k < |r.entries| ==>
              && r.entries[k].restaurant == SortByName(catalog.value, cmp)[k]
              && DeepLinkId(origin, r.entries[k].openHref) == Some(r.entries[k].restaurant.id)
              && r.entries[k].qrSrc == QrService + encode(r.entries[k].openHref)
  {
    if !HasRestaurants(catalog) then EmptyState(NoRestaurantsMessage)
    else
      var sorted := SortByName(catalog.value, cmp);
      Entries(seq(|sorted|, k requires 0 <= k < |sorted| => CardFor(sorted[k], origin, encode)))
  }

  /** The restaurants the cards show, in order: the QR-card counterpart of
      `Home.RowRestaurants`. */
  function CardRestaurants(cards: seq<QrCard>): (r: seq<Restaurant>)
    ensures |r| == |cards|
    ensures forall k :: 0 <= k < |cards| ==> r[k] == cards[k].restaurant
  {
    seq(|cards|, k requires 0 <= k < |cards| => cards[k].restaurant)
  }

  /** The QR page shows every restaurant of the catalog exactly once, in name
      order when the comparison is consistent, and each card's link is the
      deep link of its own restaurant. */
  lemma QrListingContents(catalog: Option<seq<Restaurant>>, origin: string, cmp: (string, string) -> int,
                          encode: string -> string)
    requires HasRestaurants(catalog)
    ensures var cards := QrListing(catalog, origin, cmp, encode).entries;
      && multiset(CardRestaurants(cards)) == multiset(catalog.value)
      && (ConsistentComparison(cmp) ==> SortedByName(CardRestaurants(cards), cmp))
      && forall k :: 0 <= k < |cards| ==> cards[k].link == cards[k].openHref == DeepLink(origin, cards[k].restaurant.id)
  {
    var cards := QrListing(catalog, origin, cmp, encode).entries;
    assert CardRestaurants(cards) == SortByName(catalog.value, cmp);
    if ConsistentComparison(cmp) {
      SortByNameSorted(catalog.value, cmp);
    }
  }

  /** The QR page and the home page's full listing show the same restaurants
      in the same order. */
  lemma SameOrderAsFullListing(catalog: Option<seq<Restaurant>>, origin: string, pathname: string,
                               cmp: (string, string) -> int, encode: string -> string)
    ensures QrListing(catalog, origin, cmp, encode).EmptyState? == Home.FullListing(catalog, pathname, cmp).EmptyState?
    ensures HasRestaurants(catalog) ==>
              CardRestaurants(QrListing(catalog, origin, cmp, encode).entries)
              == Home.RowRestaurants(Home.FullListing(catalog, pathname, cmp).entries)
  {
  }
}

=== FILE: sequences.dfy ===
/** `Array.prototype.find` and `Array.prototype.filter` as pure functions on sequences. */
module Sequences {
  import opened Wrappers

  /** The index of the first element satisfying `p`, as `find`/`findIndex` search. */
  function FindFirst<T>(s: seq<T>, p: T -> bool): (r: Option<nat>)
    ensures r.Some? ==> r.value < |s| && p(s[r.value])
    ensures r.Some? ==> forall j :: 0 <= j < r.value ==> !p(s[j])
    ensures r.None? <==> forall j :: 0 <= j < |s| ==> !p(s[j])
  {
    if |s| == 0 then None
    else if p(s[0]) then Some(0)
    else match FindFirst(s[1..], p)
      case None => None
      case Some(k) => Some(k + 1)
  }

  /** The elements satisfying `p`, in their original order. */
  function Filter<T>(s: seq<T>, p: T -> bool): (r: seq<T>)
    ensures |r| <= |s|
    ensures forall x :: x in r ==> x in s && p(x)
    ensures forall i :: 0 <= i < |s| && p(s[i]) ==> s[i] in r
  {
    if |s| == 0 then []
    else (if p(s[0]) then [s[0]] else []) + Filter(s[1..], p)
  }

  /** Filtering distributes over concatenation; together with the one-element
      case this pins the result down to "the satisfying elements, in order". */
  lemma {:induction false} FilterConcat<T>(a: seq<T>, b: seq<T>, p: T -> bool)
    ensures Filter(a + b, p) == Filter(a, p) + Filter(b, p)
    decreases |a|
  {
    if |a| == 0 {
      assert a + b == b;
    } else {
      assert (a + b)[1..] == a[1..] + b;
      FilterConcat(a[1..], b, p);
    }
  }

  /** A one-element sequence is kept exactly when its element satisfies `p`. */
  lemma FilterSingleton<T>(x: T, p: T -> bool)
    ensures Filter([x], p) == if p(x) then [x] else []
  {
    assert [x][1..] == [];
  }

  /** Nothing is dropped when every element satisfies `p`. */
  lemma {:induction false} FilterAll<T>(s: seq<T>, p: T -> bool)
    requires forall i :: 0 <= i < |s| ==> p(s[i])
    ensures Filter(s, p) == s
    decreases |s|
  {
    if |s| > 0 {
      FilterAll(s[1..], p);
    }
  }
}

=== FILE: sorting.dfy ===
/** A stable sort by an abstract comparison, as `Array.prototype.sort` with a
    comparator performs it (ECMAScript 2019 and later require stability):
    elements that tie keep their input order (`SortStable`). */
module Sorting {
  import Sequences

  /** `leq` is total and transitive: what a consistent comparator provides. */
  ghost predicate TotalPreorder<T(!new)>(leq: (T, T) -> bool) {
    && (forall a, b :: leq(a, b) || leq(b, a))
    && (forall a, b, c :: leq(a, b) && leq(b, c) ==> leq(a, c))
  }

  ghost predicate Sorted<T>(s: seq<T>, leq: (T, T) -> bool) {
    forall i, j :: 0 <= i < j < |s| ==> leq(s[i], s[j])
  }

  /** Places `x` in front of the first element it does not come after, so that
      `x` precedes every element it ties with. */
  function Insert<T>(x: T, s: seq<T>, leq: (T, T) -> bool): (r: seq<T>)
    ensures |r| == |s| + 1
    ensures multiset(r) == multiset(s) + multiset{x}
  {
    if |s| == 0 then [x]
    else if leq(x, s[0]) then [x] + s
    else
      assert s == [s[0]] + s[1..];
      [s[0]] + Insert(x, s[1..], leq)
  }

  /** Insertion sort: the head of the input is inserted into the sorted tail, so
      earlier elements stay ahead of later ones they tie with. */
  function Sort<T>(s: seq<T>, leq: (T, T) -> bool): (r: seq<T>)
    ensures |r| == |s|
    ensures multiset(r) == multiset(s)
  {
    if |s| == 0 then []
    else
      assert s == [s[0]] + s[1..];
      Insert(s[0], Sort(s[1..], leq), leq)
  }

  lemma {:induction false} InsertSorted<T(!new)>(x: T, s: seq<T>, leq: (T, T) -> bool)
    requires TotalPreorder(leq)
    requires Sorted(s, leq)
    ensures Sorted(Insert(x, s, leq), leq)
    decreases |s|
  {
    if |s| == 0 {
    } else if leq(x, s[0]) {
      var r := [x] + s;
      forall i, j | 0 <= i < j < |r| ensures leq(r[i], r[j]) {
        if i == 0 {
          if j > 1 {
            assert leq(s[0], s[j - 1]);
          }
        } else {
          assert leq(s[i - 1], s[j - 1]);
        }
      }
    } else {
      assert leq(s[0], x);
      var t := Insert(x, s[1..], leq);
      InsertSorted(x, s[1..], leq);
      forall y | y in t ensures leq(s[0], y) {
        assert y in multiset(t);
        if y != x {
          assert y in multiset(s[1..]);
          var k :| 0 <= k < |s[1..]| && s[1..][k] == y;
          assert leq(s[0], s[k + 1]);
        }
      }
      var r := [s[0]] + t;
      forall i, j | 0 <= i < j < |r| ensures leq(r[i], r[j]) {
        if i == 0 {
          assert r[j] == t[j - 1];
          assert r[j] in t;
        } else {
          assert leq(t[i - 1], t[j - 1]);
        }
      }
    }
  }

  /** With a consistent comparator the result is ordered. */
  lemma {:induction false} SortSorted<T(!new)>(s: seq<T>, leq: (T, T) -> bool)
    requires TotalPreorder(leq)
    ensures Sorted(Sort(s, leq), leq)
    decreases |s|
  {
    if |s| > 0 {
      SortSorted(s[1..], leq);
      InsertSorted(s[0], Sort(s[1..], leq), leq);
    }
  }

  /** Two ordered arrangements of the same elements start with the same
      element when no two distinct elements tie. */
  lemma SortedHeadsEqual<T>(a: seq<T>, b: seq<T>, leq: (T, T) -> bool)
    requires |a| > 0
    requires Sorted(a, leq) && Sorted(b, leq)
    requires multiset(a) == multiset(b)
    requires forall x, y :: x in a && y in a && leq(x, y) && leq(y, x) ==> x == y
    ensures |b| > 0 && a[0] == b[0]
  {
    assert a[0] in multiset(b);
    var j :| 0 <= j < |b| && b[j] == a[0];
    assert b[0] in multiset(a);
    var i :| 0 <= i < |a| && a[i] == b[0];
    if i != 0 && j != 0 {
      assert leq(a[0], a[i]) && leq(b[0], b[j]);
      assert b[0] in a;
    }
  }

  lemma TailsSameElements<T>(a: seq<T>, b: seq<T>)
    requires |a| > 0 && |b| > 0 && a[0] == b[0]
    requires multiset(a) == multiset(b)
    ensures multiset(a[1..]) == multiset(b[1..])
  {
    assert a == [a[0]] + a[1..] && b == [b[0]] + b[1..];
    assert multiset(a) == multiset{a[0]} + multiset(a[1..]);
    assert multiset(b) == multiset{b[0]} + multiset(b[1..]);
    forall y ensures multiset(a[1..])[y] == multiset(b[1..])[y] {
      assert multiset(a)[y] == multiset(b)[y];
    }
  }

  /** Two ordered arrangements of the same elements coincide when no two
      distinct elements tie: the sorted order is independent of input order. */
  lemma {:induction false} SortedUnique<T>(a: seq<T>, b: seq<T>, leq: (T, T) -> bool)
    requires Sorted(a, leq) && Sorted(b, leq)
    requires multiset(a) == multiset(b)
    requires forall x, y :: x in a && y in a && leq(x, y) && leq(y, x) ==> x == y
    ensures a == b
    decreases |a|
  {
    if |a| == 0 {
      assert |multiset(b)| == 0;
    } else {
      SortedHeadsEqual(a, b, leq);
      TailsSameElements(a, b);
      forall x, y | x in a[1..] && y in a[1..] && leq(x, y) && leq(y, x) ensures x == y {
        assert x in a && y in a;
      }
      SortedUnique(a[1..], b[1..], leq);
      assert a == [a[0]] + a[1..] && b == [b[0]] + b[1..];
    }
  }

  /** Sorting two arrangements of the same elements gives the same sequence
      when the comparator is consistent and no two distinct elements tie. */
  lemma SortPermutationInvariant<T(!new)>(a: seq<T>, b: seq<T>, leq: (T, T) -> bool)
    requires TotalPreorder(leq)
    requires multiset(a) == multiset(b)
    requires forall x, y :: x in a && y in a && leq(x, y) && leq(y, x) ==> x == y
    ensures Sort(a, leq) == Sort(b, leq)
  {
    SortSorted(a, leq);
    SortSorted(b, leq);
    var sa, sb := Sort(a, leq), Sort(b, leq);
    forall x, y | x in sa && y in sa && leq(x, y) && leq(y, x) ensures x == y {
      assert x in multiset(sa) && y in multiset(sa);
      assert x in multiset(a) && y in multiset(a);
    }
    SortedUnique(sa, sb, leq);
  }

  /** The elements that tie with `x`: each comes no later than `x` and `x`
      comes no later than it. */
  function TiedWith<T>(leq: (T, T) -> bool, x: T): T -> bool {
    (e: T) => leq(e, x) && leq(x, e)
  }

  /** Inserting `a` puts it ahead of every element it ties with, and keeps
      the other elements in their order. */
  lemma {:induction false} InsertKeepsTies<T(!new)>(a: T, t: seq<T>, leq: (T, T) -> bool, x: T)
    requires TotalPreorder(leq)
    ensures var p := TiedWith(leq, x);
      Sequences.Filter(Insert(a, t, leq), p) == (if p(a) then [a] else []) + Sequences.Filter(t, p)
    decreases |t|
  {
    var p := TiedWith(leq, x);
    if |t| == 0 {
    } else if leq(a, t[0]) {
      assert ([a] + t)[1..] == t;
    } else {
      InsertKeepsTies(a, t[1..], leq, x);
      assert ([t[0]] + Insert(a, t[1..], leq))[1..] == Insert(a, t[1..], leq);
    }
  }

  /** Stability: the elements that tie with any `x` appear in the sorted
      result in the same order, and as often, as in the input. */
  lemma {:induction false} SortStable<T(!new)>(s: seq<T>, leq: (T, T) -> bool, x: T)
    requires TotalPreorder(leq)
    ensures Sequences.Filter(Sort(s, leq), TiedWith(leq, x)) == Sequences.Filter(s, TiedWith(leq, x))
    decreases |s|
  {
    if |s| > 0 {
      SortStable(s[1..], leq, x);
      InsertKeepsTies(s[0], Sort(s[1..], leq), leq, x);
    }
  }
}

=== FILE: strings.dfy ===
/** Substring tests on strings as `String.prototype.includes` and
    `String.prototype.startsWith` perform them. */
module Strings {

  /** `s.startsWith(prefix)`. */
  predicate StartsWith(s: string, prefix: string) {
    |prefix| <= |s| && s[..|prefix|] == prefix
  }

  /** `sub` occurs in `s` starting at index `i`. */
  ghost predicate OccursAt(s: string, sub: string, i: int) {
    0 <= i && i + |sub| <= |s| && s[i..i + |sub|] == sub
  }

  /** `s.includes(sub)`: a left-to-right scan for an occurrence of `sub`. */
  predicate Includes(s: string, sub: string)
    decreases |s|
  {
    StartsWith(s, sub) || (|s| > 0 && Includes(s[1..], sub))
  }

  /** The scan finds an occurrence exactly when one exists. */
  lemma {:induction false} IncludesIff(s: string, sub: string)
    ensures Includes(s, sub) <==> exists i :: OccursAt(s, sub, i)
    decreases |s|
  {
    if StartsWith(s, sub) {
      assert OccursAt(s, sub, 0);
    } else if |s| == 0 {
    } else {
      IncludesIff(s[1..], sub);
      if Includes(s[1..], sub) {
        var i :| OccursAt(s[1..], sub, i);
        assert s[1..][i..i + |sub|] == s[i + 1..i + 1 + |sub|];
        assert OccursAt(s, sub, i + 1);
      }
      if i :| OccursAt(s, sub, i) {
        assert s[1..][i - 1..i - 1 + |sub|] == s[i..i + |sub|];
        assert OccursAt(s[1..], sub, i - 1);
      }
    }
  }
}

=== FILE: workouts.dfy ===
/** The workouts API handler behind API Gateway: `GET /workouts` lists the
    table, `POST /workouts` stores one workout record. The table is a
    sequence of items; the uuid, the clock, JSON decoding and the DynamoDB
    calls' outcomes are supplied by the caller. */
module Workouts {
  import opened Wrappers
  import Sequences

  /** A JSON value as `json.loads` decodes it (numbers are integers here). */
  datatype Json =
    | JNull
    | JBool(b: bool)
    | JNum(n: int)
    | JStr(s: string)
    | JArr(elems: seq<Json>)
    | JObj(fields: map<string, Json>)

  /** A DynamoDB item: attribute name to value. */
  type Record = map<string, Json>

  /** The exceptions the handler distinguishes: a missing key, and everything
      else (a subscript of a non-dictionary, an undecodable body, a failed
      DynamoDB call). */
  datatype Exception =
    | KeyError(key: string)
    | TypeError
    | JsonDecodeError
    | ServiceError(message: string)

  /** A Python computation: its value, or the exception it raised. */
  datatype Outcome<T> = Ok(value: T) | Raised(exc: Exception)

  /** What `tabela.scan()` gives: the response's `Items` field (None when
      absent), or a failed call. */
  datatype ScanResult = Scanned(items: Option<seq<Record>>) | ScanFailed(message: string)

  /** Everything the handler obtains from outside: `str(uuid.uuid4())`,
      `datetime.utcnow().isoformat()`, `json.loads` (None for undecodable
      text), the scan outcome, and the error `put_item` raises, if any. */
  datatype Services = Services(
    newId: string,
    now: string,
    parse: string -> Option<Json>,
    scan: ScanResult,
    putError: Option<string>)

  /** The response body, before `json.dumps`. A 500 body's `error` text is
      `str(e)` of the exception carried here. */
  datatype Body =
    | ItemList(items: seq<Record>)
    | Saved(message: string, id: string, treino: Record)
    | RouteMessage(mensagem: string)
    | ErrorText(error: string)
    | InternalError(exc: Exception)

  datatype Response = Response(statusCode: int, body: Body)

  /** A handler invocation: the response returned and the table afterwards. */
  datatype Invocation = Invocation(response: Response, table: seq<Record>)

  const GetRoute: string := "GET /workouts"
  const PostRoute: string := "POST /workouts"
  const SavedMessage: string := "Treino salvo com sucesso!"
  const NotFoundMessage: string := "Rota não encontrada"
  const MissingFieldPrefix: string := "Campo obrigatório ausente: "

  /** The attribute names of a stored workout. */
  const WorkoutKeys: set<string> := {"id", "user_id", "data", "tipo", "exercicios"}

  /** Python's `value[key]` on a decoded JSON value: dictionaries raise
      `KeyError` for a missing key; any other value raises `TypeError`. */
  function Subscript(v: Json, key: string): (r: Outcome<Json>)
    ensures r.Ok? <==> v.JObj? && key in v.fields
    ensures r.Ok? ==> r.value == v.fields[key]
    ensures r.Raised? ==> r.exc == (if v.JObj? then KeyError(key) else TypeError)
  {
    match v
    case JObj(fields) => if key in fields then Ok(fields[key]) else Raised(KeyError(key))
    case _ => Raised(TypeError)
  }

  /** Python truthiness of a decoded value. */
  predicate Truthy(v: Json) {
    match v
    case JNull => false
    case JBool(b) => b
    case JNum(n) => n != 0
    case JStr(s) => |s| > 0
    case JArr(elems) => |elems| > 0
    case JObj(fields) => |fields| > 0
  }

  /** `body.get('data') or now`: the body's `data` when present and truthy,
      otherwise the current timestamp. */
  function WorkoutDate(body: map<string, Json>, now: string): (r: Json)
    ensures "data" in body && Truthy(body["data"]) ==> r == body["data"]
    ensures !("data" in body && Truthy(body["data"])) ==> r == JStr(now)
  {
    if "data" in body && Truthy(body["data"]) then body["data"] else JStr(now)
  }

  /** `str(KeyError(k))` quotes the key, so the message reads
      "Campo obrigatório ausente: 'user_id'". */
  function MissingFieldText(key: string): string {
    MissingFieldPrefix + "'" + key + "'"
  }

  /** `put_item`: the item replaces any item with the same `id` (the table's
      key) and is otherwise added. */
  function Put(table: seq<Record>, item: Record): (r: seq<Record>)
    requires "id" in item
    ensures item in r
    ensures forall x :: x in r && x != item ==> x in table
    ensures forall x :: x in table && !SameId(x, item) ==> x in r
    ensures forall x :: x in r && SameId(x, item) ==> x == item
    ensures |r| <= |table| + 1
  {
    Sequences.Filter(table, (x: Record) => !SameId(x, item)) + [item]
  }

  predicate SameId(x: Record, y: Record) {
    "id" in x && "id" in y && x["id"] == y["id"]
  }

  /** With an identifier no stored item carries, storing is an append. */
  lemma PutFreshAppends(table: seq<Record>, item: Record)
    requires "id" in item
    requires forall k :: 0 <= k < |table| ==> !SameId(table[k], item)
    ensures Put(table, item) == table + [item]
  {
    Sequences.FilterAll(table, (x: Record) => !SameId(x, item));
  }

  /** `event['requestContext']['routeKey']`. */
  function RouteKey(event: Json): Outcome<Json> {
    match Subscript(event, "requestContext")
    case Raised(e) => Raised(e)
    case Ok(context) => Subscript(context, "routeKey")
  }

  /** The fields of the decoded POST body: `json.loads(event['body'])`, which
      raises `TypeError` when the body is not a string. */
  function DecodeBody(event: Json, parse: string -> Option<Json>): Outcome<Json> {
    match Subscript(event, "body")
    case Raised(e) => Raised(e)
    case Ok(text) =>
      if !text.JStr? then Raised(TypeError)
      else match parse(text.s)
        case None => Raised(JsonDecodeError)
        case Some(v) => Ok(v)
  }

  /** The workout record, its fields read in the order `user_id`, `data`,
      `tipo`, `exercicios`, so the first missing one is the one reported. */
  function BuildWorkout(body: Json, id: string, now: string): (r: Outcome<Record>)
    ensures r.Ok? <==> body.JObj? && "user_id" in body.fields && "tipo" in body.fields && "exercicios" in body.fields
    ensures r.Ok? ==> r.value.Keys == WorkoutKeys
    ensures r.Ok? ==> && r.value["id"] == JStr(id)
                      && r.value["user_id"] == body.fields["user_id"]
                      && r.value["data"] == WorkoutDate(body.fields, now)
                      && r.value["tipo"] == body.fields["tipo"]
                      && r.value["exercicios"] == body.fields["exercicios"]
    ensures r.Raised? && body.JObj? ==> r.exc.KeyError?
  {
    match Subscript(body, "user_id")
    case Raised(e) => Raised(e)
    case Ok(userId) =>
      var data := WorkoutDate(body.fields, now);
      match Subscript(body, "tipo")
      case Raised(e) => Raised(e)
      case Ok(tipo) =>
        match Subscript(body, "exercicios")
        case Raised(e) => Raised(e)
        case Ok(exercicios) =>
          Ok(map["id" := JStr(id), "user_id" := userId, "data" := data, "tipo" := tipo, "exercicios" := exercicios])
  }

  /** The body of the `try`: the route dispatch, which either returns or raises. */
  function Dispatch(event: Json, services: Services, table: seq<Record>): (r: Outcome<Invocation>)
    ensures r.Ok? && r.value.response.statusCode != 201 ==> r.value.table == table
    ensures r.Ok? ==> r.value.response.statusCode in {200, 201, 404}
  {
    match RouteKey(event)
    case Raised(e) => Raised(e)
    case Ok(route) =>
      if route == JStr(GetRoute) then
        match services.scan
        case ScanFailed(message) => Raised(ServiceError(message))
        case Scanned(items) => Ok(Invocation(Response(200, ItemList(items.GetOr([]))), table))
      else if route == JStr(PostRoute) then
        match DecodeBody(event, services.parse)
        case Raised(e) => Raised(e)
        case Ok(body) =>
          match BuildWorkout(body, services.newId, services.now)
          case Raised(e) => Raised(e)
          case Ok(treino) =>
            match services.putError
            case Some(message) => Raised(ServiceError(message))
            case None =>
              Ok(Invocation(Response(201, Saved(SavedMessage, services.newId, treino)), Put(table, treino)))
      else
        Ok(Invocation(Response(404, RouteMessage(NotFoundMessage)), table))
  }

  /** `lambda_handler`: the dispatch, with a `KeyError` answered by 400 and any
      other exception by 500. Only a 201 answer changes the table. */
  function Handler(event: Json, services: Services, table: seq<Record>): (r: Invocation)
    ensures r.response.statusCode in {200, 201, 400, 404, 500}
    ensures r.response.statusCode != 201 ==> r.table == table
    ensures r.response.statusCode == 400 ==> exists k :: r.response.body == ErrorText(MissingFieldText(k))
    ensures r.response.statusCode == 500 ==> r.response.body.InternalError? && !r.response.body.exc.KeyError?
  {
    match Dispatch(event, services, table)
    case Ok(invocation) => invocation
    case Raised(KeyError(key)) => Invocation(Response(400, ErrorText(MissingFieldText(key))), table)
    case Raised(e) => Invocation(Response(500, InternalError(e)), table)
  }

  /** The event's route key is the string `key`. */
  predicate RouteIs(event: Json, key: string) {
    RouteKey(event) == Ok(JStr(key))
  }

  /** `GET /workouts` answers 200 with the scanned items (none when the
      response has no `Items`) and leaves the table alone; a failed scan is a 500. */
  lemma GetListsScannedItems(event: Json, services: Services, table: seq<Record>)
    requires RouteIs(event, GetRoute)
    ensures var r := Handler(event, services, table);
      && r.table == table
      && (services.scan.Scanned? ==>
            r.response == Response(200, ItemList(services.scan.items.GetOr([]))))
      && (services.scan.ScanFailed? ==> r.response.statusCode == 500)
  {
  }

  /** A POST answers 201 exactly when the body decodes to an object holding
      `user_id`, `tipo` and `exercicios` and the write succeeds; then the
      stored record has exactly the five workout fields, the answer echoes
      the new id and the record, and the table gains that record. */
  lemma PostStoresWorkout(event: Json, services: Services, table: seq<Record>)
    requires RouteIs(event, PostRoute)
    ensures var r := Handler(event, services, table);
      var body := DecodeBody(event, services.parse);
      && (r.response.statusCode == 201 <==>
            && body.Ok? && body.value.JObj?
            && "user_id" in body.value.fields && "tipo" in body.value.fields && "exercicios" in body.value.fields
            && services.putError.None?)
      && (r.response.statusCode == 201 ==>
            exists treino: Record ::
              && treino.Keys == WorkoutKeys
              && treino["id"] == JStr(services.newId)
              && treino["user_id"] == body.value.fields["user_id"]
              && treino["tipo"] == body.value.fields["tipo"]
              && treino["exercicios"] == body.value.fields["exercicios"]
              && treino["data"] == WorkoutDate(body.value.fields, services.now)
              && r.response.body == Saved(SavedMessage, services.newId, treino)
              && r.table == Put(table, treino))
  {
    var body := DecodeBody(event, services.parse);
    if body.Ok? {
      var built := BuildWorkout(body.value, services.newId, services.now);
      if built.Ok? && services.putError.None? {
        var treino := built.value;
        assert Handler(event, services, table).table == Put(table, treino);
      }
    }
  }

  /** With a fresh uuid, a successful POST appends exactly one record, the
      one it echoes, and keeps every stored item. */
  lemma PostAppendsOneRecord(event: Json, services: Services, table: seq<Record>)
    requires RouteIs(event, PostRoute)
    requires forall k :: 0 <= k < |table| ==> !("id" in table[k] && table[k]["id"] == JStr(services.newId))
    ensures var r := Handler(event, services, table);
      r.response.statusCode == 201 ==> r.response.body.Saved? && r.table == table + [r.response.body.treino]
  {
    var body := DecodeBody(event, services.parse);
    if body.Ok? {
      var built := BuildWorkout(body.value, services.newId, services.now);
      if built.Ok? && services.putError.None? {
        PutFreshAppends(table, built.value);
      }
    }
  }

  /** A decoded object body missing a required field is answered 400 naming
      the first missing field in the order the source reads them, and nothing
      is written. */
  lemma MissingFieldRejected(event: Json, services: Services, table: seq<Record>, field: string)
    requires RouteIs(event, PostRoute)
    requires DecodeBody(event, services.parse).Ok?
    requires var body := DecodeBody(event, services.parse).value;
      && body.JObj?
      && field in ["user_id", "tipo", "exercicios"]
      && field !in body.fields
      && forall f :: f in ["user_id", "tipo", "exercicios"] && f != field && f !in body.fields ==>
           (field == "user_id" || (field == "tipo" && f == "exercicios"))
    ensures Handler(event, services, table) == Invocation(Response(400, ErrorText(MissingFieldText(field))), table)
  {
  }

  /** An event without `requestContext`, or whose context has no `routeKey`,
      is answered 400 with the missing key named. */
  lemma MissingRouteRejected(event: Json, services: Services, table: seq<Record>)
    requires event.JObj?
    requires "requestContext" !in event.fields
             || (event.fields["requestContext"].JObj? && "routeKey" !in event.fields["requestContext"].fields)
    ensures var r := Handler(event, services, table);
      && r.response.statusCode == 400
      && r.table == table
      && r.response.body == ErrorText(MissingFieldText(if "requestContext" !in event.fields then "requestContext" else "routeKey"))
  {
  }

  /** A POST whose `body` key is missing is a 400; one whose body text does
      not decode, or decodes to something other than an object, is a 500. */
  lemma MalformedBodyRejected(event: Json, services: Services, table: seq<Record>)
    requires RouteIs(event, PostRoute)
    ensures var body := DecodeBody(event, services.parse);
      var r := Handler(event, services, table);
      && ("body" !in event.fields ==> r.response == Response(400, ErrorText(MissingFieldText("body"))))
      && (body.Raised? && !body.exc.KeyError? ==> r.response.statusCode == 500)
      && (body.Ok? && !body.value.JObj? ==> r.response == Response(500, InternalError(TypeError)))
      && (body.Raised? || !body.value.JObj? ==> r.table == table)
  {
  }

  /** Any route other than the two workouts routes is answered 404 and
      leaves the table alone. */
  lemma OtherRouteNotFound(event: Json, services: Services, table: seq<Record>)
    requires RouteKey(event).Ok?
    requires RouteKey(event).value != JStr(GetRoute) && RouteKey(event).value != JStr(PostRoute)
    ensures Handler(event, services, table) == Invocation(Response(404, RouteMessage(NotFoundMessage)), table)
  {
  }
}

=== FILE: wrappers.dfy ===
/** The optional-value datatype used where the source returns `null`, `undefined`
    or leaves a dictionary key out. */
module Wrappers {

  datatype Option<+T> = None | Some(value: T) {

    /** Returns the value held in Some, or `default` for None
        (JavaScript's `x || default`, Python's `d.get(k, default)`). */
    function GetOr(default: T): (r: T)
      ensures Some? ==> r == value
      ensures None? ==> r == default
    {
      match this
      case Some(v) => v
      case None => default
    }
  }
}
